=== FILE: README.md ===
# Help-desk pages: a Dafny model

This project models the ticket pages of a small help-desk web application.
Its tickets (`chamados`) and chat messages live in a realtime database.
Four pages are modelled:

- **New ticket** (`NewCall`). A form whose handlers update one field each.
  The browser refuses to submit it while a required field is empty or the
  email is malformed. Submitting it pushes the form under `chamados/{uid}`
  with a creation time and a protocol: `CH-`, up to eight base-36
  characters, `-` and a number from 0 to 999.
- **Ticket list** (`CallList`). The user's tickets, last entry first. It
  shows header counters and cards drawn from lookup tables that have
  fallbacks.
- **Dashboard** (`Home`). The tickets get a normalised opening date and are
  sorted newest first. The page shows status counters, the number opened
  since a cutoff, the resolution rate and the latest ticket.
- **Chat** (`Chat`). The transcript is sorted by timestamp. The ticket status
  gates sending, and a "user is typing" flag is debounced. The page's state
  is the class `Chat.ChatSession`, whose methods are its event handlers.

Three modules hold the shared pieces:

- `Js`: the JavaScript string semantics the pages rely on. This covers
  truthiness, `||`, `trim`, `toUpperCase`/`toLowerCase`, `substring`,
  `slice(-n)` and decimal rendering.
- `Sequences`: a stable sort, `filter(...).length` and `reverse`.
- `Store`: the stored records and the database snapshots they arrive in.

The module `Pages` relates the pages to each other. It states what a
submitted ticket looks like on the dashboard and in the list, and what
status a chat that received it as its ticket would show.

Database reads are inputs to the model: the snapshot's value, given as its
entries in `Object.entries` order. Database writes are outputs: the record a
push would write. Whether a write succeeded is an input flag (`pushOk`,
`ok`, `typingOk`). The clock,
`Math.random()`, `localStorage` and the hour of the day are parameters.

The code has no status transition graph, no ratings, no form validation
beyond the browser's `required` and `type="email"` checks (no length
limits), no category-coded protocol, no expiry of the typing flag and no server-side
refusal of messages to a closed ticket; none is modelled. The code's
spellings are kept as written:
the dashboard counts `"Resolvidos"` and `"Em Andamento"`, while the list
uses `"Em andamento"` and `"Resolvido"`.

## Model

| member | source | states |
|---|---|---|
| Js.Trim | src/pages/Chat/index.jsx:401 | `trim` leaves a string no longer than its input, with no whitespace at either end |
| Js.TrimIsSlice | src/pages/Chat/index.jsx:408 | the trimmed text is a contiguous slice of the draft, with only whitespace cut off on either side |
| Js.TrimEmptyIffBlank | src/pages/Chat/index.jsx:401 | `!s.trim()` holds exactly when every character of `s` is ECMAScript whitespace |
| Js.Substring | src/pages/Chamado/NewCall/index.jsx:35 | `substring` clamps its bounds to the string: the exact slice when the bounds fit, the tail when `end` runs past the end, "" when `start` does |
| Js.Decimal | src/pages/Chamado/NewCall/index.jsx:35 | a number renders as one or more decimal digits with no leading zero |
| Js.DecimalRoundTrip | src/pages/Chamado/NewCall/index.jsx:35 | the digits a number renders to read back as that number |
| Js.DecimalBelowThousand | src/pages/Chamado/NewCall/index.jsx:35 | a number below 1000 renders in at most three digits |
| Sequences.SortBy | src/pages/Chat/index.jsx:369 | the sort with a numeric comparator gives a permutation in non-decreasing key order, keeping equal keys in input order |
| Sequences.CountIfPermutation | src/pages/Home/index.jsx:87-99 | a `filter(...).length` count does not depend on the order of the list |
| Sequences.CountIfDisjoint3 | src/pages/Home/index.jsx:88-90 | three mutually exclusive filters count together at most the length of the list |
| Chat.Transcript | src/pages/Chat/index.jsx:364-369 | the transcript is the snapshot's entries, oldest timestamp first, equal timestamps in key order; an empty node gives no messages |
| Chat.TranscriptEntries | src/pages/Chat/index.jsx:365-368 | each stored entry appears in the transcript with its key as `id`, and nothing else does |
| Chat.NextStatus | src/pages/Chat/index.jsx:376-379 | a ticket with a non-empty status sets the chat status to its lower-cased form; otherwise the status is kept |
| Chat.ClosedInAnyCase | src/pages/Chat/index.jsx:377-378 | a ticket whose status is "Fechado" in any letter case closes the chat |
| Chat.CanSendIff | src/pages/Chat/index.jsx:401 | a send starts exactly when the draft has a non-whitespace character, no send is in flight and the chat is not "fechado" |
| Chat.OutgoingMessage | src/pages/Chat/index.jsx:407-411 | the pushed message is the trimmed draft, authored "usuario", stamped with the current time |
| Chat.AuthorInfoOf | src/pages/Chat/index.jsx:466-482 | "usuario" is shown as the current user with the upper-cased initial of the name; any other author is "Suporte TI" / "TI" |
| Chat.SentMessagesAreOwn | src/pages/Chat/index.jsx:407-411 | every message the page writes is shown as the current user's, under the user's name |
| Chat.ShowAdminTyping | src/pages/Chat/index.jsx:599 | the support-typing line shows exactly when the flag is set and the chat is not closed |
| Chat.ClosedHidesAdminTyping | src/pages/Chat/index.jsx:376-379 | a ticket snapshot with status "fechado" in any letter case hides the support-typing line whatever the flag; any other non-empty status leaves it to the flag |
| Chat.InputDisabled | src/pages/Chat/index.jsx:633 | the input is disabled exactly while a send is in flight or the chat is closed, and then no draft can be sent |
| Chat.ChatSession.constructor | src/pages/Chat/index.jsx:346-360 | a session starts with no messages, an empty draft, status "aberto", and loading exactly when it has a ticket id; without a `userName` prop the name is "Usuário" |
| Chat.ChatSession.OnMessagesSnapshot | src/pages/Chat/index.jsx:363-370 | a messages snapshot replaces the transcript and ends loading; nothing else changes |
| Chat.ChatSession.OnTicketSnapshot | src/pages/Chat/index.jsx:375-380 | a ticket snapshot updates only the chat status, to its lower-cased status; a closed ticket hides the support-typing line and disables the input |
| Chat.ChatSession.OnAdminTypingSnapshot | src/pages/Chat/index.jsx:383-385 | the support-typing flag is set exactly when the stored value is `true`; nothing else changes |
| Chat.ChatSession.SetTypingStatus | src/pages/Chat/index.jsx:421-431 | the user's typing flag is written only with a ticket id and a successful update; nothing else changes |
| Chat.ChatSession.HandleInputChange | src/pages/Chat/index.jsx:433-444 | a closed chat ignores edits; otherwise the draft takes the value, the typing flag is set and the idle timer restarts 2000 ms ahead |
| Chat.ChatSession.TypingTimerFires | src/pages/Chat/index.jsx:441-443 | when the idle timer fires, the typing flag is cleared and the timer is gone |
| Chat.ChatSession.HandleSend | src/pages/Chat/index.jsx:400-407 | a send that passes the gate marks the session sending and issues the trimmed message; a send that fails it changes nothing |
| Chat.ChatSession.SendSettled | src/pages/Chat/index.jsx:407-418 | a successful push records the message, clears the draft and the typing flag; a failed one keeps the draft; either way sending ends |
| Home.Mount | src/pages/Home/index.jsx:41-55 | without a user id the page shows no tickets, no profile and no spinner; with one it reads `usuarios/{uid}` and `chamados/{uid}` |
| Home.UserName | src/pages/Home/index.jsx:38 | the greeting uses the stored name, else "Usuário" |
| Home.FormatTimestamp | src/pages/Home/index.jsx:31-35 | an absent or zero timestamp, or one outside the range of a `Date`, gives no date; any other gives its instant |
| Home.OpeningDate | src/pages/Home/index.jsx:62-65 | the opening date is the stored `dataAbertura`, else the valid `timestamp`, else the clock reading taken for that ticket |
| Home.Chamados | src/pages/Home/index.jsx:56-76 | the list holds every entry, each dated with its own clock reading when it has no valid date, newest opening date first, equal dates in snapshot order; an empty node gives an empty list |
| Home.ComputeStats | src/pages/Home/index.jsx:87-99 | the counters are the exact-status counts and the number opened at or after the cutoff; no ticket is counted under two statuses |
| Home.StatsIgnoreOrder | src/pages/Home/index.jsx:68-90 | sorting does not change any counter: the sorted list and the snapshot give the same counts |
| Home.ResolutionRate | src/pages/Home/index.jsx:223 | the rate is 0 without tickets, otherwise the percentage rounded half up, and never above 100 |
| Home.Latest | src/pages/Home/index.jsx:138 | the latest ticket is the head of the list, absent for an empty list |
| Home.LatestIsNewest | src/pages/Home/index.jsx:68-72 | the latest ticket is one of the snapshot's tickets, none opened later, and the first in snapshot order among those opened at the same instant |
| Home.LatestLabel | src/pages/Home/index.jsx:237 | the caption is the `assunto`, else "Chamado #" and the last four characters of the key |
| Home.LatestCaption | src/pages/Home/index.jsx:236-238 | the caption expression gives "N/A" with no tickets (a branch the page never shows, since the block renders only when there are tickets, line 210), else the latest ticket's caption |
| Home.Greeting | src/pages/Home/index.jsx:101-106 | "Bom dia" before 12, "Boa tarde" from 12 to before 18, "Boa noite" from 18 |
| CallList.Mount | src/pages/Chamado/CallList/index.jsx:14-24 | without a user id the list is empty with no spinner; with one the page reads `chamados/{uid}` |
| CallList.Chamados | src/pages/Chamado/CallList/index.jsx:28-38 | the list holds as many rows as the snapshot has entries; an empty node gives an empty list |
| CallList.ChamadosReversed | src/pages/Chamado/CallList/index.jsx:30-35 | the i-th row is the i-th entry from the end of the snapshot, with its key as `id` |
| CallList.Header | src/pages/Chamado/CallList/index.jsx:150-163 | the header counts all tickets and those exactly "Aberto" and "Em andamento", together never more than the total |
| CallList.CategoryIcon | src/pages/Chamado/CallList/index.jsx:46-61 | a category in the table gets its icon; any other gets the clipboard |
| CallList.CategoryTableKeys | src/pages/Chamado/CallList/index.jsx:47-59 | the icon table has entries for exactly the eleven categories it names |
| CallList.PriorityColor | src/pages/Chamado/CallList/index.jsx:64-72 | a priority in the table gets its classes; any other gets gray |
| CallList.StatusInfoOf | src/pages/Chamado/CallList/index.jsx:75-99 | a known status gets its badge, any other the "Aberto" badge; the badge pulses exactly unless the status is "Resolvido" or "Fechado" |
| CallList.ShownDescription | src/pages/Chamado/CallList/index.jsx:225 | a description of up to 120 characters is shown whole; a longer one as its first 120 characters and "..." |
| CallList.CardLabel | src/pages/Chamado/CallList/index.jsx:182 | the card title is the protocol, else the key |
| CallList.AvatarInitial | src/pages/Chamado/CallList/index.jsx:199 | the avatar is the upper-cased first character of the name, else "U" |
| NewCall.Form.With | src/pages/Chamado/NewCall/index.jsx:20-22 | an update replaces the named field and keeps every other field and the status |
| NewCall.InitialForm | src/pages/Chamado/NewCall/index.jsx:11-18 | the form starts with every field empty and status "Aberto" |
| NewCall.Fragment | src/pages/Chamado/NewCall/index.jsx:35 | the fragment is at most eight characters from after "0." of the base-36 rendering, upper-cased; the full eight when the rendering has them |
| NewCall.Suffix | src/pages/Chamado/NewCall/index.jsx:35 | the suffix is the floor of the draw times 1000, between 0 and 999 |
| NewCall.Protocolo | src/pages/Chamado/NewCall/index.jsx:35 | a protocol starts with "CH-" and has 5 to 15 characters |
| NewCall.ProtocoloShape | src/pages/Chamado/NewCall/index.jsx:35 | a protocol reads back: "CH-", up to eight upper-case base-36 digits, "-", and one to three digits that denote the suffix |
| NewCall.Record | src/pages/Chamado/NewCall/index.jsx:37-41 | the pushed record is the form's fields plus `criadoEm` and `protocolo`, and nothing else |
| NewCall.NewCallPage.constructor | src/pages/Chamado/NewCall/index.jsx:11-18 | the page starts with the initial form |
| NewCall.NewCallPage.HandleChange | src/pages/Chamado/NewCall/index.jsx:20-22 | an input changes only its own field |
| NewCall.NewCallPage.SelectCategoria | src/pages/Chamado/NewCall/index.jsx:55 | the category select changes only the category |
| NewCall.NewCallPage.SelectPrioridade | src/pages/Chamado/NewCall/index.jsx:63 | the priority select changes only the priority |
| NewCall.NewCallPage.HandleSubmit | src/pages/Chamado/NewCall/index.jsx:24-48 | runs only on a form whose required fields are filled; without a user id nothing is written and the form is kept; otherwise the record is pushed under `chamados/{uid}` and the form is cleared exactly when the push succeeds; every pushed ticket is "Aberto" |
| NewCall.NewCallPage.Submit | src/pages/Chamado/NewCall/index.jsx:51-71 | the browser cancels a submit with an empty name, email or description or a malformed email, writing nothing and keeping the form; otherwise `handleSubmit` runs; every written ticket is "Aberto" with a name, an email and a description |
| Pages.NewTicketOpensAtSnapshotTime | src/pages/Home/index.jsx:62-65 | the dashboard does not read the `criadoEm` the form writes, so a new ticket's opening date is the clock reading taken while it is mapped |
| Pages.NewTicketCardLabel | src/pages/Chamado/CallList/index.jsx:182 | a new ticket's card is titled by its protocol |
| Pages.NewTicketIsOpen | src/pages/Chamado/NewCall/index.jsx:17 | a new ticket counts as "Aberto" on the dashboard and in the list and pulses; a chat that received this record would be "aberto" (the chat never receives it, see the path layout under Left out) |

## Left out

- Rendering is not modelled: the JSX markup, CSS classes other than the lookup tables, icons, scrolling (`scrollToBottom`), toasts and the profile card.
- Subscription lifetimes are not modelled: unsubscribing on unmount and re-subscribing when the route changes. Each snapshot callback is an operation.
- Asynchrony is reduced to a fixed set of steps. The chat's message push is issued by one operation and settled by another, so snapshots may arrive in between. Every other write settles in the step that issues it, so two typing-flag writes cannot settle out of order.
- NewCall.NewCallPage.HandleSubmit: the push's in-flight window is not modelled. The inputs and the submit button stay enabled while the push is awaited. A second submit in that window writes a duplicate ticket under a second protocol, and edits made meanwhile are lost to the reset after a successful push.
- `formatTime` in the chat is not modelled, because it depends on the locale and on `toLocale*String`.
- The dashboard's seven-day cutoff is a parameter, because it is computed from the local calendar. The hour of the greeting is a parameter too.
- `Math.random()` is a parameter. Its base-36 rendering (`toString(36)`) is an input string, and `NewCall.ProtocoloShape` assumes the rendering has the "0." form.
- Home.ResolutionRate: rounds the exact fraction half up. `Math.round` on the floating-point quotient can differ from it where the quotient is not exactly representable.
- Js.ToUpper: maps only ASCII letters. JavaScript's full Unicode case mapping is not modelled, and neither is `Js.ToLower`'s.
- String lengths are counted in Unicode scalar values rather than UTF-16 code units, so the 120-character cut and `slice(-4)` differ on astral characters.
- Stored records are typed. A field a stored ticket lacks is "" (or no time), and a status that is not a string is not modelled. Home's `dataAbertura` and `timestamp` are instants; an unparsable date string is not modelled.
- Chat.Transcript: every stored message is taken to have a numeric `timestamp`. A message without one makes the source's comparator return `NaN`, and the resulting order is not modelled.
- The spread `{ id, ...record }` is modelled as the key winning. A stored record with its own `id` field would override the key in the source.
- The lookup tables are modelled as maps. Keys inherited from `Object.prototype` (such as `"constructor"`) would be found by the source's object lookup.
- NewCall.NewCallPage.Submit: the `type="email"` syntax check is a parameter, the browser's verdict, rather than a model of the address grammar.
- `NewCall.NewCallPage.HandleChange` covers the five named form fields. Inputs with other names would add fields to the record in the source.
- The chat reads `chamados/{chamadoId}` and `chamados/{chamadoId}/mensagens`, while tickets are written under `chamados/{uid}/{key}`. The list also navigates to `/chat/{uid}/{id}`. The routing and path layout that connect these are not part of this model.
- Other parts of the repository are not part of this model: the login and routing code, the cloud functions, the error page and the status filter component.

=== FILE: call_list.dfy ===
/**
 * The ticket list (src/pages/Chamado/CallList/index.jsx): the user's
 * tickets in reverse snapshot order, the header counters and the lookup
 * tables and fallbacks each card is drawn from.
 */
module CallList {
  import opened Js
  import opened Store
  import opened Sequences

  /** A listed ticket: its key as `id` and the stored record. */
  datatype Row = Row(id: string, ticket: Ticket)

  /**
   * What the page does when it mounts: without a user id it settles at
   * once on an empty list and no spinner; with one it subscribes to the
   * user's tickets and shows the spinner until the first snapshot.
   */
  datatype Mounted =
    | SignedOut(chamados: seq<Row>, loading: bool)
    | Subscribed(chamadosPath: string)

  function Mount(stored: Option<string>): (m: Mounted)
    ensures !Present(stored) <==> m.SignedOut?
    ensures m.SignedOut? ==> m.chamados == [] && !m.loading
    ensures m.Subscribed? ==> m.chamadosPath == "chamados/" + stored.value
  {
    var uid := if stored.Some? then stored.value else "";
    if !Truthy(uid) then SignedOut([], false) else Subscribed("chamados/" + uid)
  }

  function ToRow(e: Entry<Ticket>): Row {
    Row(e.key, e.value)
  }

  function ToRows(es: seq<Entry<Ticket>>): (rs: seq<Row>)
    ensures |rs| == |es|
    ensures forall i :: 0 <= i < |es| ==> rs[i] == ToRow(es[i])
  {
    seq(|es|, i requires 0 <= i < |es| => ToRow(es[i]))
  }

  /** The list kept for a tickets snapshot: the entries, last key first. */
  function Chamados(snap: Snapshot<Ticket>): (r: seq<Row>)
    ensures snap.None? ==> r == []
    ensures |r| == |Entries(snap)|
  {
    Reverse(ToRows(Entries(snap)))
  }

  /**
   * The i-th row of the list is the i-th entry from the end of the
   * snapshot, carrying its key as `id`.
   */
  lemma ChamadosReversed(snap: Snapshot<Ticket>)
    ensures forall i :: 0 <= i < |Entries(snap)| ==>
      var e := Entries(snap)[|Entries(snap)| - 1 - i];
      Chamados(snap)[i] == Row(e.key, e.value)
  {
    var es := Entries(snap);
    forall i | 0 <= i < |es| ensures Chamados(snap)[i] == ToRow(es[|es| - 1 - i]) {
      ReverseAt(ToRows(es), i);
    }
  }

  predicate IsAberto(r: Row) { r.ticket.status == "Aberto" }
  predicate IsEmAndamento(r: Row) { r.ticket.status == "Em andamento" }

  datatype HeaderCounts = HeaderCounts(total: nat, abertos: nat, emAndamento: nat)

  /**
   * The header: the number of tickets and those whose status is exactly
   * "Aberto" and "Em andamento"; no ticket is counted twice.
   */
  function Header(chamados: seq<Row>): (h: HeaderCounts)
    ensures h.total == |chamados|
    ensures h.abertos == CountIf(chamados, IsAberto)
    ensures h.emAndamento == CountIf(chamados, IsEmAndamento)
    ensures h.abertos + h.emAndamento <= h.total
  {
    CountIfDisjoint(chamados, IsAberto, IsEmAndamento);
    HeaderCounts(|chamados|, CountIf(chamados, IsAberto), CountIf(chamados, IsEmAndamento))
  }

  const DefaultCategoryIcon: string := "\U{1F4CB}"

  const CategoryIcons: map<string, string> := map[
    "Hardware" := "\U{1F5A5}\U{FE0F}",
    "Software" := "\U{1F4BB}",
    "Rede" := "\U{1F310}",
    "Email" := "\U{1F4E7}",
    "Impressora" := "\U{1F5A8}\U{FE0F}",
    "Sistema" := "\U{2699}\U{FE0F}",
    "Segurança" := "\U{1F512}",
    "Backup" := "\U{1F4BE}",
    "TI" := "\U{1F4BB}",
    "Financeiro" := "\U{1F4B0}",
    "RH" := "\U{1F465}"
  ]

  const DefaultPriorityColor: string := "bg-gray-100 text-gray-800 border-gray-200"

  const PriorityColors: map<string, string> := map[
    "Baixa" := "bg-green-100 text-green-800 border-green-200",
    "Média" := "bg-yellow-100 text-yellow-800 border-yellow-200",
    "Alta" := "bg-orange-100 text-orange-800 border-orange-200",
    "Crítica" := "bg-red-100 text-red-800 border-red-200"
  ]

  /** `table[key]`: the entry, or `undefined` (here "") when there is none. */
  function Lookup(table: map<string, string>, key: string): string {
    if key in table then table[key] else ""
  }

  /** The icon of a category: its table entry, else the clipboard. */
  function CategoryIcon(categoria: string): (r: string)
    ensures categoria in CategoryIcons ==> r == CategoryIcons[categoria]
    ensures categoria !in CategoryIcons ==> r == DefaultCategoryIcon
    ensures Truthy(r)
  {
    OrElse(Lookup(CategoryIcons, categoria), DefaultCategoryIcon)
  }

  /** The badge classes of a priority: its table entry, else gray. */
  function PriorityColor(prioridade: string): (r: string)
    ensures prioridade in PriorityColors ==> r == PriorityColors[prioridade]
    ensures prioridade !in PriorityColors ==> r == DefaultPriorityColor
    ensures Truthy(r)
  {
    OrElse(Lookup(PriorityColors, prioridade), DefaultPriorityColor)
  }

  /** The table has an entry for each of the eleven categories it names, and only those. */
  lemma CategoryTableKeys()
    ensures CategoryIcons.Keys == {"Hardware", "Software", "Rede", "Email", "Impressora", "Sistema",
                                   "Segurança", "Backup", "TI", "Financeiro", "RH"}
  {
  }

  datatype StatusInfo = StatusInfo(color: string, icon: string, pulse: bool)

  const StatusTable: map<string, StatusInfo> := map[
    "Aberto" := StatusInfo("bg-red-500 text-white", "\U{1F534}", true),
    "Em andamento" := StatusInfo("bg-yellow-500 text-white", "\U{1F7E1}", true),
    "Resolvido" := StatusInfo("bg-green-500 text-white", "\U{2705}", false),
    "Fechado" := StatusInfo("bg-gray-500 text-white", "\U{26AB}", false)
  ]

  /**
   * The badge of a status: its table entry, and the "Aberto" entry for any
   * status the table lacks. The badge pulses unless the ticket is
   * "Resolvido" or "Fechado".
   */
  function StatusInfoOf(status: string): (r: StatusInfo)
    ensures status in StatusTable ==> r == StatusTable[status]
    ensures status !in StatusTable ==> r == StatusTable["Aberto"]
    ensures r.pulse <==> status != "Resolvido" && status != "Fechado"
  {
    if status in StatusTable then StatusTable[status] else StatusTable["Aberto"]
  }

  const DescriptionLimit: nat := 120

  /**
   * The description shown on a card: unchanged up to 120 characters,
   * otherwise its first 120 characters followed by "...".
   */
  function ShownDescription(descricao: string): (r: string)
    ensures |descricao| <= DescriptionLimit ==> r == descricao
    ensures |descricao| > DescriptionLimit ==> |r| == DescriptionLimit + 3 && r == descricao[..DescriptionLimit] + "..."
    ensures |r| <= DescriptionLimit + 3
    ensures var n := if |descricao| < DescriptionLimit then |descricao| else DescriptionLimit;
      n <= |r| && r[..n] == descricao[..n]
  {
    if Truthy(descricao) && |descricao| > DescriptionLimit then descricao[..DescriptionLimit] + "..." else descricao
  }

  /** The card title: the protocol, else the key. */
  function CardLabel(row: Row): (r: string)
    ensures Truthy(row.ticket.protocolo) ==> r == row.ticket.protocolo
    ensures !Truthy(row.ticket.protocolo) ==> r == row.id
  {
    OrElse(row.ticket.protocolo, row.id)
  }

  /** The avatar letter: the first character of the name upper-cased, else "U". */
  function AvatarInitial(nome: string): (r: string)
    ensures |r| == 1 && HasNoLower(r)
    ensures Truthy(nome) ==> r == [UpperChar(nome[0])]
    ensures !Truthy(nome) ==> r == "U"
  {
    if Truthy(nome) then ToUpper(nome[..1]) else "U"
  }
}

=== FILE: chat.dfy ===
/**
 * The chat page of one ticket (src/pages/Chat/index.jsx): the transcript
 * derived from the messages snapshot, the ticket status that gates
 * sending, the send itself and the debounced "user is typing" flag.
 * The pure derivations are functions; the page's session state is the
 * class `ChatSession`, whose methods are the page's event handlers.
 */
module Chat {
  import opened Js
  import opened Store
  import opened Sequences

  /** The (lower-cased) status under which the chat accepts nothing. */
  const Closed: string := "fechado"
  /** The status a session starts with, before any ticket snapshot. */
  const InitialStatus: string := "aberto"
  /** The author tag of messages written from this page. */
  const UserAuthor: string := "usuario"
  const SupportName: string := "Suporte TI"
  /** Idle time after the last edit before the typing flag is cleared. */
  const TypingIdleMs: int := 2000

  /** A transcript entry: the stored message with its key as `id`. */
  datatype Message = Message(id: string, texto: string, autor: string, timestamp: int)

  function TimestampOf(m: Message): int {
    m.timestamp
  }

  function ToMessage(e: Entry<StoredMessage>): Message {
    Message(e.key, e.value.texto, e.value.autor, e.value.timestamp)
  }

  function ToMessages(es: seq<Entry<StoredMessage>>): (ms: seq<Message>)
    ensures |ms| == |es|
    ensures forall i :: 0 <= i < |es| ==> ms[i] == ToMessage(es[i])
  {
    seq(|es|, i requires 0 <= i < |es| => ToMessage(es[i]))
  }

  /**
   * The transcript shown for a messages snapshot: the entries as messages,
   * ordered by timestamp, oldest first, messages with equal timestamps
   * keeping the order of their keys; an empty node gives no messages.
   */
  function Transcript(snap: Snapshot<StoredMessage>): (r: seq<Message>)
    ensures snap.None? ==> r == []
    ensures |r| == |Entries(snap)|
    ensures multiset(r) == multiset(ToMessages(Entries(snap)))
    ensures SortedBy(r, TimestampOf)
    ensures forall t :: WithKey(r, TimestampOf, t) == WithKey(ToMessages(Entries(snap)), TimestampOf, t)
  {
    SortBy(ToMessages(Entries(snap)), TimestampOf)
  }

  /**
   * Every stored entry appears in the transcript, carrying its key as
   * `id`, and the transcript holds nothing else.
   */
  lemma TranscriptEntries(snap: Snapshot<StoredMessage>)
    ensures forall i :: 0 <= i < |Entries(snap)| ==>
      Message(Entries(snap)[i].key, Entries(snap)[i].value.texto,
              Entries(snap)[i].value.autor, Entries(snap)[i].value.timestamp) in Transcript(snap)
    ensures forall m :: m in Transcript(snap) ==>
      exists i :: 0 <= i < |Entries(snap)| && m.id == Entries(snap)[i].key && m.texto == Entries(snap)[i].value.texto &&
                  m.autor == Entries(snap)[i].value.autor && m.timestamp == Entries(snap)[i].value.timestamp
  {
    var es, r := Entries(snap), Transcript(snap);
    var ms := ToMessages(es);
    forall i | 0 <= i < |es| ensures ToMessage(es[i]) in r {
      assert ms[i] in multiset(ms);
    }
    forall m | m in r
      ensures exists i :: 0 <= i < |es| && m.id == es[i].key && m.texto == es[i].value.texto &&
                          m.autor == es[i].value.autor && m.timestamp == es[i].value.timestamp
    {
      assert m in multiset(ms);
      var i :| 0 <= i < |ms| && ms[i] == m;
      assert m == ToMessage(es[i]);
    }
  }

  /**
   * The status after a ticket snapshot: the stored status lower-cased when
   * the node exists and has a non-empty status, otherwise unchanged.
   */
  function NextStatus(current: string, data: Option<Ticket>): (r: string)
    ensures data.Some? && Truthy(data.value.status) ==> r == ToLower(data.value.status)
    ensures !(data.Some? && Truthy(data.value.status)) ==> r == current
    ensures HasNoUpper(current) ==> HasNoUpper(r)
  {
    if data.Some? && Truthy(data.value.status) then ToLower(data.value.status) else current
  }

  /** A ticket closed under any capitalisation of "fechado" closes the chat. */
  lemma ClosedInAnyCase(current: string, t: Ticket)
    requires ToLower(t.status) == Closed
    ensures NextStatus(current, Some(t)) == Closed
  {
  }

  /** The send gate, also the condition under which the send button is enabled. */
  predicate CanSend(draft: string, isSending: bool, status: string) {
    Truthy(Trim(draft)) && !isSending && status != Closed
  }

  /**
   * A send may start exactly when the draft has a character that is not
   * whitespace, no send is in flight and the chat is not closed.
   */
  lemma CanSendIff(draft: string, isSending: bool, status: string)
    ensures CanSend(draft, isSending, status) <==>
            (exists i :: 0 <= i < |draft| && !IsJsWhitespace(draft[i])) && !isSending && status != Closed
  {
  }

  /** A message as this page writes it: non-empty, trimmed, from the user. */
  predicate Sendable(m: StoredMessage) {
    m.autor == UserAuthor && Truthy(m.texto) && IsTrimmed(m.texto)
  }

  /** The message `handleSend` pushes for a draft at time `now`. */
  function OutgoingMessage(draft: string, now: int): (m: StoredMessage)
    requires Truthy(Trim(draft))
    ensures Sendable(m)
    ensures m.texto == Trim(draft) && m.timestamp == now
  {
    StoredMessage(Trim(draft), UserAuthor, now)
  }

  datatype AuthorInfo = AuthorInfo(name: string, avatar: string, color: string, isCurrentUser: bool)

  /**
   * How a message's author is shown: "usuario" is the current user, named
   * `userName` with the upper-cased first character as avatar; any other
   * author is the support team.
   */
  function AuthorInfoOf(autor: string, userName: string): (r: AuthorInfo)
    ensures r.isCurrentUser <==> autor == UserAuthor
    ensures r.isCurrentUser ==> r.name == userName && r.avatar == ToUpper(userName[..if userName == "" then 0 else 1])
    ensures !r.isCurrentUser ==> r.name == SupportName && r.avatar == "TI"
    ensures |r.avatar| <= 2 && HasNoLower(r.avatar)
  {
    if autor == UserAuthor then
      AuthorInfo(userName, ToUpper(userName[..if userName == "" then 0 else 1]), "bg-blue-500", true)
    else
      AuthorInfo(SupportName, "TI", "bg-green-500", false)
  }

  /** Every message this page writes is shown as the current user's. */
  lemma SentMessagesAreOwn(m: StoredMessage, userName: string)
    requires Sendable(m)
    ensures AuthorInfoOf(m.autor, userName).isCurrentUser
    ensures AuthorInfoOf(m.autor, userName).name == userName
  {
  }

  /** The "Suporte TI está digitando..." line is shown. */
  function ShowAdminTyping(adminTyping: bool, status: string): (r: bool)
    ensures r <==> adminTyping && status != Closed
  {
    adminTyping && status != Closed
  }

  /**
   * A ticket snapshot whose status is "fechado" in any capitalisation hides
   * the support team's typing line whatever its flag says; any other
   * non-empty status leaves the line to the flag alone.
   */
  lemma ClosedHidesAdminTyping(current: string, t: Ticket, flag: bool)
    ensures ToLower(t.status) == Closed ==> !ShowAdminTyping(flag, NextStatus(current, Some(t)))
    ensures Truthy(t.status) && ToLower(t.status) != Closed ==>
            ShowAdminTyping(flag, NextStatus(current, Some(t))) == flag
  {
    if ToLower(t.status) == Closed {
      ClosedInAnyCase(current, t);
    }
  }

  /** The draft input is disabled. */
  function InputDisabled(isSending: bool, status: string): (r: bool)
    ensures r <==> isSending || status == Closed
    ensures forall draft :: r ==> !CanSend(draft, isSending, status)
  {
    isSending || status == Closed
  }

  /** The session state of one open chat page. */
  class ChatSession {
    /** The ticket id from the route. */
    const chamadoId: string
    const userName: string

    var messages: seq<Message>
    var newMsg: string
    var isLoading: bool
    var isSending: bool
    var adminTyping: bool
    var chatStatus: string
    /** The value this session last wrote to `typingStatus/usuario`, if any. */
    var userTyping: Option<bool>
    /** When the scheduled clear of the typing flag is due, if one is scheduled. */
    var pendingClear: Option<int>
    /** The message whose push is awaiting acknowledgement. */
    var pendingPush: Option<StoredMessage>
    /** The messages this session has appended to `chamados/{chamadoId}/mensagens`. */
    var sent: seq<StoredMessage>

    ghost predicate Valid()
      reads this
    {
      && (isSending <==> pendingPush.Some?)
      && (pendingPush.Some? ==> Sendable(pendingPush.value))
      && (forall i :: 0 <= i < |sent| ==> Sendable(sent[i]))
      && SortedBy(messages, TimestampOf)
      && HasNoUpper(chatStatus)
    }

    /**
     * The first render followed by the mount effect. `userName` is the
     * prop, `None` when the route passes none.
     */
    constructor (chamadoId: string, userName: Option<string>)
      ensures Valid()
      ensures this.chamadoId == chamadoId
      ensures this.userName == if userName.Some? then userName.value else DefaultUserName
      ensures messages == [] && newMsg == "" && isLoading == Truthy(chamadoId)
      ensures !isSending && !adminTyping && chatStatus == InitialStatus
      ensures userTyping == None && pendingClear == None && pendingPush == None && sent == []
    {
      this.chamadoId := chamadoId;
      this.userName := if userName.Some? then userName.value else DefaultUserName;
      messages := [];
      newMsg := "";
      isLoading := Truthy(chamadoId);
      isSending := false;
      adminTyping := false;
      chatStatus := InitialStatus;
      userTyping := None;
      pendingClear := None;
      pendingPush := None;
      sent := [];
    }

    /** A snapshot of `chamados/{chamadoId}/mensagens` arrives. */
    method OnMessagesSnapshot(snap: Snapshot<StoredMessage>)
      requires Valid()
      modifies this`messages, this`isLoading
      ensures Valid()
      ensures messages == Transcript(snap) && !isLoading
    {
      messages := Transcript(snap);
      isLoading := false;
    }

    /** A snapshot of `chamados/{chamadoId}` arrives. */
    method OnTicketSnapshot(data: Option<Ticket>)
      requires Valid()
      modifies this`chatStatus
      ensures Valid()
      ensures chatStatus == NextStatus(old(chatStatus), data)
      ensures data.Some? && ToLower(data.value.status) == Closed ==>
              !ShowAdminTyping(adminTyping, chatStatus) && InputDisabled(isSending, chatStatus)
    {
      if data.Some? && Truthy(data.value.status) {
        chatStatus := ToLower(data.value.status);
      }
    }

    /** A snapshot of `typingStatus/admin` arrives; `val` is its value, if the node exists. */
    method OnAdminTypingSnapshot(val: Option<bool>)
      requires Valid()
      modifies this`adminTyping
      ensures Valid()
      ensures adminTyping <==> val == Some(true)
    {
      adminTyping := val == Some(true);
    }

    /**
     * `setTypingStatus`: writes `typingStatus/usuario` when the page has a
     * ticket id; `ok` says whether the write succeeded (a failure is
     * swallowed and leaves the stored flag as it was).
     */
    method SetTypingStatus(isTyping: bool, ok: bool)
      requires Valid()
      modifies this`userTyping
      ensures Valid()
      ensures userTyping == if Truthy(chamadoId) && ok then Some(isTyping) else old(userTyping)
    {
      if !Truthy(chamadoId) {
        return;
      }
      if ok {
        userTyping := Some(isTyping);
      }
    }

    /**
     * `handleInputChange` at time `now`: unless the chat is closed, takes
     * the new draft, raises the typing flag and replaces any scheduled
     * clear with one due `TypingIdleMs` later.
     */
    method HandleInputChange(value: string, now: int, typingOk: bool)
      requires Valid()
      modifies this`newMsg, this`userTyping, this`pendingClear
      ensures Valid()
      ensures chatStatus == Closed ==> newMsg == old(newMsg) && userTyping == old(userTyping) && pendingClear == old(pendingClear)
      ensures chatStatus != Closed ==> newMsg == value && pendingClear == Some(now + TypingIdleMs)
      ensures chatStatus != Closed ==> userTyping == if Truthy(chamadoId) && typingOk then Some(true) else old(userTyping)
    {
      if chatStatus == Closed {
        return;
      }
      newMsg := value;
      SetTypingStatus(true, typingOk);
      pendingClear := Some(now + TypingIdleMs);
    }

    /**
     * The scheduled clear fires at time `now`, which is no earlier than
     * its due time: the typing flag is written false.
     */
    method TypingTimerFires(now: int, typingOk: bool)
      requires Valid()
      requires pendingClear.Some? && pendingClear.value <= now
      modifies this`pendingClear, this`userTyping
      ensures Valid()
      ensures pendingClear == None
      ensures userTyping == if Truthy(chamadoId) && typingOk then Some(false) else old(userTyping)
    {
      pendingClear := None;
      SetTypingStatus(false, typingOk);
    }

    /**
     * `handleSend` up to its `await`: when the gate passes, marks the send
     * in flight and issues the push of the trimmed draft stamped `now`;
     * otherwise changes nothing.
     */
    method HandleSend(now: int)
      requires Valid()
      modifies this`isSending, this`pendingPush
      ensures Valid()
      ensures CanSend(newMsg, old(isSending), chatStatus) ==>
                isSending && pendingPush == Some(OutgoingMessage(newMsg, now))
      ensures !CanSend(newMsg, old(isSending), chatStatus) ==>
                isSending == old(isSending) && pendingPush == old(pendingPush)
    {
      if CanSend(newMsg, isSending, chatStatus) {
        var m := OutgoingMessage(newMsg, now);
        isSending, pendingPush := true, Some(m);
      }
    }

    /**
     * The push issued by `HandleSend` settles. On success the message is
     * appended, the draft cleared and the typing flag written false; on
     * failure the draft is kept. Either way the send is no longer in flight.
     */
    method SendSettled(pushOk: bool, typingOk: bool)
      requires Valid() && isSending
      modifies this`isSending, this`pendingPush, this`sent, this`newMsg, this`userTyping
      ensures Valid()
      ensures !isSending && pendingPush == None
      ensures pushOk ==> sent == old(sent) + [old(pendingPush).value] && newMsg == ""
      ensures pushOk ==> userTyping == if Truthy(chamadoId) && typingOk then Some(false) else old(userTyping)
      ensures !pushOk ==> sent == old(sent) && newMsg == old(newMsg) && userTyping == old(userTyping)
    {
      var m := pendingPush.value;
      if pushOk {
        sent := sent + [m];
        newMsg := "";
        SetTypingStatus(false, typingOk);
      }
      isSending := false;
      pendingPush := None;
    }
  }
}

=== FILE: home.dfy ===
/**
 * The dashboard (src/pages/Home/index.jsx): the user's tickets with a
 * normalised opening date, newest first, and the figures derived from
 * them. Everything here is a function of the tickets snapshot, the
 * readings of the clock (one per ticket, as the page calls `new Date()`
 * once per entry) and the recent-activity `cutoff`, all in milliseconds
 * since the epoch; an ISO date string of the source is represented by
 * the instant it denotes.
 */
module Home {
  import opened Js
  import opened Store
  import opened Sequences

  /** The largest distance from the epoch a JavaScript `Date` can hold. */
  const MaxDateMs: int := 8_640_000_000_000_000

  /** A listed ticket: its key, the stored record and its normalised `dataAbertura`. */
  datatype DatedTicket = DatedTicket(id: string, ticket: Ticket, dataAbertura: int)

  datatype Profile = Profile(nome: string, funcao: string, email: string)

  /**
   * What the page does when it mounts: without a user id it settles at
   * once on an empty list, no profile and no spinner; with one it
   * subscribes to the profile and to the user's tickets.
   */
  datatype Mounted =
    | SignedOut(chamados: seq<DatedTicket>, profile: Option<Profile>, loading: bool)
    | Subscribed(profilePath: string, chamadosPath: string)

  function Mount(uid: Option<string>): (m: Mounted)
    ensures !Present(uid) <==> m.SignedOut?
    ensures m.SignedOut? ==> m.chamados == [] && m.profile == None && !m.loading
    ensures m.Subscribed? ==> m.profilePath == "usuarios/" + uid.value && m.chamadosPath == "chamados/" + uid.value
  {
    if !Present(uid) then SignedOut([], None, false)
    else Subscribed("usuarios/" + uid.value, "chamados/" + uid.value)
  }

  /** The name in the greeting: the stored user name, else "Usuário". */
  function UserName(stored: Option<string>): (r: string)
    ensures Present(stored) ==> r == stored.value
    ensures !Present(stored) ==> r == DefaultUserName
    ensures Truthy(r)
  {
    if Present(stored) then stored.value else DefaultUserName
  }

  /**
   * `formatTimestamp`: no date for an absent or zero timestamp, nor for one
   * outside the range of a `Date`; otherwise the instant itself.
   */
  function FormatTimestamp(ts: Option<int>): (r: Option<int>)
    ensures r.None? <==> ts.None? || ts.value == 0 || ts.value < -MaxDateMs || ts.value > MaxDateMs
    ensures r.Some? ==> r == ts
  {
    if ts.None? || ts.value == 0 then None
    else if ts.value < -MaxDateMs || ts.value > MaxDateMs then None
    else ts
  }

  /**
   * The opening date of a ticket: its stored `dataAbertura`, else its
   * formatted `timestamp`, else `now`, the clock reading taken while the
   * ticket is mapped.
   */
  function OpeningDate(t: Ticket, now: int): (d: int)
    ensures t.dataAbertura.Some? ==> d == t.dataAbertura.value
    ensures t.dataAbertura.None? && FormatTimestamp(t.timestamp).Some? ==> d == t.timestamp.value
    ensures t.dataAbertura.None? && FormatTimestamp(t.timestamp).None? ==> d == now
  {
    if t.dataAbertura.Some? then t.dataAbertura.value
    else if FormatTimestamp(t.timestamp).Some? then FormatTimestamp(t.timestamp).value
    else now
  }

  function ToDated(e: Entry<Ticket>, now: int): DatedTicket {
    DatedTicket(e.key, e.value, OpeningDate(e.value, now))
  }

  /**
   * The entries in snapshot order, each with its key and opening date.
   * `clocks[i]` is the reading of `new Date()` taken while the i-th entry
   * is mapped: the clock is read once per entry, so entries that fall back
   * on it may get different instants.
   */
  function Dated(es: seq<Entry<Ticket>>, clocks: seq<int>): (ds: seq<DatedTicket>)
    requires |clocks| == |es|
    ensures |ds| == |es|
    ensures forall i :: 0 <= i < |es| ==> ds[i] == ToDated(es[i], clocks[i])
  {
    seq(|es|, i requires 0 <= i < |es| => ToDated(es[i], clocks[i]))
  }

  /** The sort key of the newest-first order. */
  function NewestFirst(d: DatedTicket): int {
    -d.dataAbertura
  }

  /**
   * The list the dashboard keeps for a tickets snapshot: every entry,
   * newest opening date first, tickets opened at the same instant in
   * snapshot order; an empty node gives the empty list.
   */
  function Chamados(snap: Snapshot<Ticket>, clocks: seq<int>): (r: seq<DatedTicket>)
    requires |clocks| == |Entries(snap)|
    ensures snap.None? ==> r == []
    ensures |r| == |Entries(snap)|
    ensures multiset(r) == multiset(Dated(Entries(snap), clocks))
    ensures forall i, j :: 0 <= i < j < |r| ==> r[i].dataAbertura >= r[j].dataAbertura
    ensures forall k :: WithKey(r, NewestFirst, k) == WithKey(Dated(Entries(snap), clocks), NewestFirst, k)
  {
    var r := SortBy(Dated(Entries(snap), clocks), NewestFirst);
    assert forall i, j :: 0 <= i < j < |r| ==> NewestFirst(r[i]) <= NewestFirst(r[j]);
    r
  }

  predicate IsAberto(c: DatedTicket) { c.ticket.status == "Aberto" }
  predicate IsResolvidos(c: DatedTicket) { c.ticket.status == "Resolvidos" }
  predicate IsEmAndamento(c: DatedTicket) { c.ticket.status == "Em Andamento" }

  /** The filter of the tickets opened at or after `cutoff`. */
  function OpenedSince(cutoff: int): DatedTicket -> bool {
    (c: DatedTicket) => c.dataAbertura >= cutoff
  }

  datatype Stats = Stats(total: nat, abertos: nat, resolvidos: nat, emAndamento: nat, recentes: nat)

  /**
   * The dashboard counters: the number of tickets, those whose status is
   * exactly "Aberto", "Resolvidos" and "Em Andamento", and those opened at
   * or after `cutoff`. No counter exceeds the total, and no ticket is
   * counted under two statuses.
   */
  function ComputeStats(chamados: seq<DatedTicket>, cutoff: int): (s: Stats)
    ensures s.total == |chamados|
    ensures s.abertos == CountIf(chamados, IsAberto)
    ensures s.resolvidos == CountIf(chamados, IsResolvidos)
    ensures s.emAndamento == CountIf(chamados, IsEmAndamento)
    ensures s.recentes == CountIf(chamados, OpenedSince(cutoff))
    ensures s.abertos + s.resolvidos + s.emAndamento <= s.total
    ensures s.recentes <= s.total
  {
    CountIfDisjoint3(chamados, IsAberto, IsResolvidos, IsEmAndamento);
    Stats(|chamados|,
          CountIf(chamados, IsAberto),
          CountIf(chamados, IsResolvidos),
          CountIf(chamados, IsEmAndamento),
          CountIf(chamados, OpenedSince(cutoff)))
  }

  /**
   * The status counters of the sorted list are those of the snapshot:
   * the order the dashboard imposes does not change any figure.
   */
  lemma StatsIgnoreOrder(snap: Snapshot<Ticket>, clocks: seq<int>, p: DatedTicket -> bool)
    requires |clocks| == |Entries(snap)|
    ensures CountIf(Chamados(snap, clocks), p) == CountIf(Dated(Entries(snap), clocks), p)
  {
    CountIfPermutation(Chamados(snap, clocks), Dated(Entries(snap), clocks), p);
  }

  /**
   * The resolution rate in percent: 0 without tickets, otherwise
   * `100 * resolvidos / total` rounded to the nearest integer, halves up.
   */
  function ResolutionRate(resolvidos: nat, total: nat): (rate: nat)
    ensures total == 0 ==> rate == 0
    ensures total > 0 ==> 2 * total * rate <= 200 * resolvidos + total < 2 * total * rate + 2 * total
    ensures resolvidos <= total ==> rate <= 100
  {
    if total == 0 then 0
    else
      var n, d := 200 * resolvidos + total, 2 * total;
      var q := n / d;
      assert d * q <= n < d * q + d;
      RateBound(n, d, q);
      q
  }

  lemma RateBound(n: int, d: int, q: int)
    requires d > 0 && 0 <= d * q <= n
    ensures n < 101 * d ==> q <= 100
  {
  }

  /** The most recent ticket: the head of the list, if there is one. */
  function Latest(chamados: seq<DatedTicket>): (r: Option<DatedTicket>)
    ensures r.None? <==> chamados == []
    ensures r.Some? ==> r.value == chamados[0]
  {
    if |chamados| > 0 then Some(chamados[0]) else None
  }

  /**
   * The latest ticket of a snapshot is one of its tickets, none of them
   * was opened later, and it is the first in snapshot order among those
   * opened at the same instant.
   */
  lemma LatestIsNewest(snap: Snapshot<Ticket>, clocks: seq<int>)
    requires |clocks| == |Entries(snap)|
    ensures Latest(Chamados(snap, clocks)).None? <==> Entries(snap) == []
    ensures Latest(Chamados(snap, clocks)).Some? ==>
      var l, ds := Latest(Chamados(snap, clocks)).value, Dated(Entries(snap), clocks);
      && l in ds
      && (forall i :: 0 <= i < |ds| ==> ds[i].dataAbertura <= l.dataAbertura)
      && l == WithKey(ds, NewestFirst, NewestFirst(l))[0]
  {
    var r, ds := Chamados(snap, clocks), Dated(Entries(snap), clocks);
    if r != [] {
      var l := r[0];
      assert l in multiset(ds) by { assert l in multiset(r); }
      forall i | 0 <= i < |ds| ensures ds[i].dataAbertura <= l.dataAbertura {
        assert ds[i] in multiset(r) by { assert ds[i] in multiset(ds); }
        var j :| 0 <= j < |r| && r[j] == ds[i];
      }
      var k := NewestFirst(l);
      assert WithKey(r, NewestFirst, k)[0] == l;
    }
  }

  /**
   * The caption of the latest ticket: its `assunto`, else "Chamado #"
   * followed by the last four characters of its key.
   */
  function LatestLabel(t: DatedTicket): (r: string)
    ensures Truthy(t.ticket.assunto) ==> r == t.ticket.assunto
    ensures !Truthy(t.ticket.assunto) ==>
      r == "Chamado #" + t.id[|t.id| - (if |t.id| < 4 then |t.id| else 4)..]
    ensures Truthy(r)
  {
    OrElse(t.ticket.assunto, "Chamado #" + LastChars(t.id, 4))
  }

  /**
   * The "Último Chamado" cell: the latest ticket's caption, or "N/A". The
   * page renders the cell only when there are tickets, so "N/A" is never
   * shown.
   */
  function LatestCaption(chamados: seq<DatedTicket>): (r: string)
    ensures chamados == [] ==> r == "N/A"
    ensures chamados != [] ==> r == LatestLabel(chamados[0])
  {
    match Latest(chamados)
    case None => "N/A"
    case Some(t) => LatestLabel(t)
  }

  /** The greeting for an hour of the day. */
  function Greeting(hour: int): (g: string)
    ensures g == "Bom dia" <==> hour < 12
    ensures g == "Boa tarde" <==> 12 <= hour < 18
    ensures g == "Boa noite" <==> hour >= 18
  {
    if hour < 12 then "Bom dia"
    else if hour < 18 then "Boa tarde"
    else "Boa noite"
  }
}

=== FILE: js.dfy ===
/**
 * The few pieces of JavaScript string semantics the pages rely on:
 * truthiness of strings, the `||` fallback, `String.prototype.trim`,
 * case mapping, `substring`, `slice(-n)` and the decimal rendering of
 * a non-negative integer in a template literal.
 */
module Js {

  datatype Option<+T> = None | Some(value: T)

  /** A string is truthy in JavaScript exactly when it is not empty. */
  predicate Truthy(s: string) {
    s != ""
  }

  /**
   * A value read from `localStorage`: `null` or a string. It passes an
   * `if (!x)` guard only when it is a non-empty string.
   */
  predicate Present(stored: Option<string>) {
    stored.Some? && Truthy(stored.value)
  }

  /** `a || b` on strings. */
  function OrElse(a: string, b: string): (r: string)
    ensures Truthy(a) ==> r == a
    ensures !Truthy(a) ==> r == b
    ensures Truthy(b) ==> Truthy(r)
  {
    if Truthy(a) then a else b
  }

  /**
   * The characters `trim` removes: WhiteSpace (tab, vertical tab, form
   * feed, space, no-break space, the byte order mark and every Zs
   * character) and LineTerminator (LF, CR, LS, PS), as ECMAScript
   * defines them.
   */
  predicate IsJsWhitespace(c: char) {
    c in JsWhitespace || '\U{2000}' <= c <= '\U{200A}'
  }

  /** The whitespace characters outside the range U+2000..U+200A. */
  const JsWhitespace: set<char> := {
    '\t', '\n', '\U{000B}', '\U{000C}', '\r', ' ', '\U{00A0}', '\U{1680}',
    '\U{2028}', '\U{2029}', '\U{202F}', '\U{205F}', '\U{3000}', '\U{FEFF}'
  }

  /** Every character of `s` at an index from `lo` up to `hi` is whitespace. */
  predicate BlankBetween(s: string, lo: int, hi: int) {
    forall i :: lo <= i < hi && 0 <= i < |s| ==> IsJsWhitespace(s[i])
  }

  /** Every character of `s` is whitespace (vacuously true of ""). */
  predicate IsBlank(s: string) {
    BlankBetween(s, 0, |s|)
  }

  /** The first index at or after `lo` that does not hold whitespace, or `|s|`. */
  function SkipLeadingBlanks(s: string, lo: nat): (a: nat)
    requires lo <= |s|
    ensures lo <= a <= |s|
    ensures BlankBetween(s, lo, a)
    ensures a == |s| || !IsJsWhitespace(s[a])
    decreases |s| - lo
  {
    if lo < |s| && IsJsWhitespace(s[lo]) then SkipLeadingBlanks(s, lo + 1) else lo
  }

  /** The end of `s[lo..hi]` once its trailing whitespace is dropped. */
  function SkipTrailingBlanks(s: string, lo: nat, hi: nat): (b: nat)
    requires lo <= hi <= |s|
    ensures lo <= b <= hi
    ensures BlankBetween(s, b, hi)
    ensures b == lo || !IsJsWhitespace(s[b - 1])
  {
    if lo < hi && IsJsWhitespace(s[hi - 1]) then SkipTrailingBlanks(s, lo, hi - 1) else hi
  }

  /** `s` neither starts nor ends with whitespace. */
  predicate IsTrimmed(s: string) {
    s == [] || (!IsJsWhitespace(s[0]) && !IsJsWhitespace(s[|s| - 1]))
  }

  /** `s.trim()`. */
  function Trim(s: string): (r: string)
    ensures |r| <= |s|
    ensures IsTrimmed(r)
  {
    var a := SkipLeadingBlanks(s, 0);
    s[a..SkipTrailingBlanks(s, a, |s|)]
  }

  /**
   * `s.trim()` is a slice of `s` with nothing but whitespace cut off on
   * either side of it.
   */
  lemma TrimIsSlice(s: string)
    ensures exists k :: 0 <= k <= |s| - |Trim(s)| && Trim(s) == s[k..k + |Trim(s)|] &&
                        BlankBetween(s, 0, k) && BlankBetween(s, k + |Trim(s)|, |s|)
  {
    var a := SkipLeadingBlanks(s, 0);
    assert Trim(s) == s[a..a + |Trim(s)|];
  }

  /** `s.trim()` is empty exactly when `s` holds nothing but whitespace. */
  lemma TrimEmptyIffBlank(s: string)
    ensures Trim(s) == "" <==> IsBlank(s)
  {
  }

  predicate IsUpperAscii(c: char) { 'A' <= c <= 'Z' }
  predicate IsLowerAscii(c: char) { 'a' <= c <= 'z' }

  /** No character of `s` is an upper-case ASCII letter. */
  predicate HasNoUpper(s: string) {
    forall i :: 0 <= i < |s| ==> !IsUpperAscii(s[i])
  }

  /** No character of `s` is a lower-case ASCII letter. */
  predicate HasNoLower(s: string) {
    forall i :: 0 <= i < |s| ==> !IsLowerAscii(s[i])
  }

  function LowerChar(c: char): char {
    if IsUpperAscii(c) then (c as int + 32) as char else c
  }

  function UpperChar(c: char): char {
    if IsLowerAscii(c) then (c as int - 32) as char else c
  }

  /** `s.toLowerCase()` on the ASCII letters; every other character is kept. */
  function ToLower(s: string): (r: string)
    ensures |r| == |s|
    ensures HasNoUpper(r)
    ensures forall i :: 0 <= i < |s| ==> r[i] == LowerChar(s[i])
  {
    seq(|s|, i requires 0 <= i < |s| => LowerChar(s[i]))
  }

  /** `s.toUpperCase()` on the ASCII letters; every other character is kept. */
  function ToUpper(s: string): (r: string)
    ensures |r| == |s|
    ensures HasNoLower(r)
    ensures forall i :: 0 <= i < |s| ==> r[i] == UpperChar(s[i])
  {
    seq(|s|, i requires 0 <= i < |s| => UpperChar(s[i]))
  }

  function Clamp(i: int, len: nat): (r: nat)
    ensures r <= len
  {
    if i < 0 then 0 else if i > len then len else i
  }

  /**
   * `s.substring(start, end)`: both bounds are clamped to the string and
   * swapped when they are out of order.
   */
  function Substring(s: string, start: int, end: int): (r: string)
    ensures |r| <= |s|
    ensures 0 <= start <= end ==> |r| <= end - start
    ensures 0 <= start <= end <= |s| ==> r == s[start..end]
    ensures 0 <= start <= |s| <= end ==> r == s[start..]
    ensures 0 <= |s| <= start <= end ==> r == ""
  {
    var a, b := Clamp(start, |s|), Clamp(end, |s|);
    if a <= b then s[a..b] else s[b..a]
  }

  /**
   * `s.slice(-n)` for a positive `n`: the last `n` characters, or all of
   * `s` when it is shorter. (`slice(-0)` would be the whole string.)
   */
  function LastChars(s: string, n: nat): (r: string)
    requires n > 0
    ensures |r| == if |s| < n then |s| else n
    ensures r == s[|s| - |r|..]
  {
    if |s| < n then s else s[|s| - n..]
  }

  predicate IsDigit(c: char) { '0' <= c <= '9' }

  function DigitChar(d: nat): (c: char)
    requires d < 10
    ensures IsDigit(c)
  {
    ('0' as int + d) as char
  }

  function DigitValue(c: char): (d: nat)
    requires IsDigit(c)
    ensures d < 10
  {
    c as int - '0' as int
  }

  /** The value of a string of decimal digits. */
  function DecimalValue(s: string): nat
    requires forall i :: 0 <= i < |s| ==> IsDigit(s[i])
  {
    if s == [] then 0
    else DecimalValue(s[..|s| - 1]) * 10 + DigitValue(s[|s| - 1])
  }

  /** `${n}` for a non-negative integer: its decimal digits, no leading zero. */
  function Decimal(n: nat): (r: string)
    ensures |r| >= 1
    ensures forall i :: 0 <= i < |r| ==> IsDigit(r[i])
    ensures |r| > 1 ==> r[0] != '0'
  {
    if n < 10 then [DigitChar(n)] else Decimal(n / 10) + [DigitChar(n % 10)]
  }

  /** Reading back the decimal rendering gives the number. */
  lemma {:induction false} DecimalRoundTrip(n: nat)
    ensures DecimalValue(Decimal(n)) == n
  {
    if n >= 10 {
      var s := Decimal(n / 10);
      DecimalRoundTrip(n / 10);
      assert (s + [DigitChar(n % 10)])[..|s|] == s;
    }
  }

  /** A number below 1000 renders in at most three digits. */
  lemma {:induction false} DecimalBelowThousand(n: nat)
    requires n < 1000
    ensures |Decimal(n)| <= 3
  {
    if n >= 10 {
      DecimalBelowThousand(n / 10);
      if n / 10 < 10 {
        assert |Decimal(n / 10)| == 1;
      } else {
        assert n / 10 / 10 < 10;
        assert |Decimal(n / 10)| == 2;
      }
    }
  }
}

=== FILE: new_call.dfy ===
/**
 * The new-ticket form (src/pages/Chamado/NewCall/index.jsx): the form
 * state and its handlers, and the record a submission writes under
 * `chamados/{uid}`. The two `Math.random()` draws of a submission, the
 * clock and the user id in local storage are parameters.
 */
module NewCall {
  import opened Js
  import opened Store

  /** The form fields a handler can set; `status` has no input of its own. */
  datatype Field = Nome | Email | Categoria | Prioridade | Descricao

  datatype Form = Form(nome: string, email: string, categoria: string, prioridade: string,
                       descricao: string, status: string)
  {
    function Get(f: Field): string {
      match f
      case Nome => nome
      case Email => email
      case Categoria => categoria
      case Prioridade => prioridade
      case Descricao => descricao
    }

    /** `{ ...prev, [name]: value }`: the named field replaced, every other field kept. */
    function With(f: Field, v: string): (r: Form)
      ensures r.Get(f) == v
      ensures forall g :: g != f ==> r.Get(g) == Get(g)
      ensures r.status == status
    {
      match f
      case Nome => this.(nome := v)
      case Email => this.(email := v)
      case Categoria => this.(categoria := v)
      case Prioridade => this.(prioridade := v)
      case Descricao => this.(descricao := v)
    }
  }

  const InitialStatus: string := "Aberto"

  /** The form as the page first shows it, and as a successful submission leaves it. */
  function InitialForm(): (f: Form)
    ensures forall g :: f.Get(g) == ""
    ensures f.status == InitialStatus
  {
    Form("", "", "", "", "", InitialStatus)
  }

  /** A character `Number.prototype.toString(36)` writes after the point. */
  predicate IsBase36Digit(c: char) { IsDigit(c) || IsLowerAscii(c) }

  /** A character of the upper-cased fragment. */
  predicate IsUpperBase36Digit(c: char) { IsDigit(c) || IsUpperAscii(c) }

  /**
   * What `x.toString(36)` gives for a value `0 <= x < 1`: "0" for zero,
   * otherwise "0." followed by base-36 digits.
   */
  predicate IsUnitBase36(r36: string) {
    r36 == "0" ||
    (|r36| >= 2 && r36[0] == '0' && r36[1] == '.' && forall j :: 2 <= j < |r36| ==> IsBase36Digit(r36[j]))
  }

  /**
   * `r36.substring(2, 10).toUpperCase()`: at most eight characters, taken
   * from after the "0." of the rendering, with every letter upper-cased.
   */
  function Fragment(r36: string): (f: string)
    ensures |f| <= 8
    ensures |r36| >= 10 ==> |f| == 8
    ensures HasNoLower(f)
    ensures IsUnitBase36(r36) ==> forall j :: 0 <= j < |f| ==> IsUpperBase36Digit(f[j])
    ensures |f| <= |r36| - 2 || f == ""
    ensures 2 <= |r36| ==> forall j :: 0 <= j < |f| ==> f[j] == UpperChar(r36[2 + j])
  {
    ToUpper(Substring(r36, 2, 10))
  }

  /** `Math.floor(r * 1000)` for a draw `0 <= r < 1`: a number from 0 to 999. */
  function Suffix(r: real): (n: nat)
    requires 0.0 <= r < 1.0
    ensures n <= 999
    ensures n as real <= r * 1000.0 < n as real + 1.0
  {
    (r * 1000.0).Floor
  }

  /** The protocol of a ticket: "CH-", the fragment, "-", the suffix in decimal. */
  function Protocolo(r36: string, r: real): (p: string)
    requires 0.0 <= r < 1.0
    ensures 5 <= |p| <= 15
    ensures p[..3] == "CH-"
  {
    DecimalBelowThousand(Suffix(r));
    "CH-" + Fragment(r36) + "-" + Decimal(Suffix(r))
  }

  /**
   * A protocol reads back: after "CH-" come up to eight upper-case base-36
   * digits, a second "-", then one to three decimal digits that denote the
   * suffix, so that the two random parts can be told apart.
   */
  lemma ProtocoloShape(r36: string, r: real)
    requires 0.0 <= r < 1.0
    requires IsUnitBase36(r36)
    ensures var p, k := Protocolo(r36, r), 3 + |Fragment(r36)|;
      && 3 <= k <= 11 && k < |p| && p[k] == '-'
      && (forall j :: 3 <= j < k ==> IsUpperBase36Digit(p[j]) && p[j] != '-')
      && 1 <= |p| - (k + 1) <= 3
      && (forall j :: k < j < |p| ==> IsDigit(p[j]))
      && DecimalValue(p[k + 1..]) == Suffix(r)
  {
    var f, d := Fragment(r36), Decimal(Suffix(r));
    var p := Protocolo(r36, r);
    assert p == "CH-" + f + "-" + d;
    assert p[3 + |f| + 1..] == d;
    DecimalBelowThousand(Suffix(r));
    DecimalRoundTrip(Suffix(r));
  }

  /** The form as stored: its fields under the names of a ticket. */
  function FormOf(t: Ticket): Form {
    Form(t.nome, t.email, t.categoria, t.prioridade, t.descricao, t.status)
  }

  /**
   * `{ ...form, criadoEm, protocolo }`: every form field, the creation time
   * and the protocol, and none of the fields other writers set.
   */
  function Record(form: Form, now: int, protocolo: string): (t: Ticket)
    ensures FormOf(t) == form
    ensures t.criadoEm == Some(now) && t.protocolo == protocolo
    ensures t.assunto == "" && t.dataAbertura.None? && t.timestamp.None?
  {
    Ticket(form.nome, form.email, form.categoria, form.prioridade, form.descricao, form.status,
           Some(now), protocolo, "", None, None)
  }

  /** A write of `record` as a new child of the node at `path`. */
  datatype Push = Push(path: string, record: Ticket)

  /**
   * The `required` attributes of the inputs named `nome` and `email` and of
   * the `descricao` text area: each must hold a non-empty value.
   */
  predicate RequiredFilled(form: Form) {
    form.nome != "" && form.email != "" && form.descricao != ""
  }

  /**
   * The browser's constraint validation of the form, which has no
   * `noValidate`: the required fields are filled and the `type="email"`
   * input holds a well-formed address, `emailWellFormed` being the
   * browser's verdict on that syntax.
   */
  predicate BrowserAccepts(form: Form, emailWellFormed: bool) {
    RequiredFilled(form) && emailWellFormed
  }

  class NewCallPage {
    var form: Form

    /** No handler touches `status`: every submitted ticket is "Aberto". */
    ghost predicate Valid()
      reads this
    {
      form.status == InitialStatus
    }

    constructor()
      ensures Valid()
      ensures form == InitialForm()
    {
      form := InitialForm();
    }

    /** `handleChange` for the input named `name`. */
    method HandleChange(name: Field, value: string)
      requires Valid()
      modifies this
      ensures Valid()
      ensures form == old(form).With(name, value)
    {
      form := form.With(name, value);
    }

    /** The category select's `onValueChange`. */
    method SelectCategoria(val: string)
      requires Valid()
      modifies this
      ensures Valid()
      ensures form == old(form).With(Categoria, val)
    {
      form := form.(categoria := val);
    }

    /** The priority select's `onValueChange`. */
    method SelectPrioridade(val: string)
      requires Valid()
      modifies this
      ensures Valid()
      ensures form == old(form).With(Prioridade, val)
    {
      form := form.(prioridade := val);
    }

    /**
     * `handleSubmit`: without a user id nothing is written and the form is
     * kept; otherwise the form is pushed under `chamados/{uid}` with its
     * creation time and a fresh protocol, and the form is cleared when the
     * write succeeds and kept when it fails. `r36` is the base-36
     * rendering of the first random draw and `r` the second draw.
     */
    method HandleSubmit(uid: Option<string>, now: int, r36: string, r: real, pushOk: bool)
      returns (push: Option<Push>)
      requires Valid()
      requires RequiredFilled(form)
      requires 0.0 <= r < 1.0
      modifies this
      ensures Valid()
      ensures !Present(uid) ==> push.None? && form == old(form)
      ensures Present(uid) ==>
        push == Some(Push("chamados/" + uid.value, Record(old(form), now, Protocolo(r36, r))))
      ensures Present(uid) ==> form == if pushOk then InitialForm() else old(form)
      ensures push.Some? ==> push.value.record.status == InitialStatus
    {
      if !Present(uid) {
        return None;
      }
      var protocolo := Protocolo(r36, r);
      push := Some(Push("chamados/" + uid.value, Record(form, now, protocolo)));
      if pushOk {
        form := Form("", "", "", "", "", InitialStatus);
      }
    }

    /**
     * The form's submit event: the browser cancels it, and nothing runs,
     * unless the form passes constraint validation; otherwise it runs
     * `handleSubmit`. Every ticket written this way has a name, an email
     * and a description.
     */
    method Submit(uid: Option<string>, now: int, r36: string, r: real, pushOk: bool, emailWellFormed: bool)
      returns (push: Option<Push>)
      requires Valid()
      requires 0.0 <= r < 1.0
      modifies this
      ensures Valid()
      ensures !BrowserAccepts(old(form), emailWellFormed) ==> push.None? && form == old(form)
      ensures BrowserAccepts(old(form), emailWellFormed) && !Present(uid) ==> push.None? && form == old(form)
      ensures BrowserAccepts(old(form), emailWellFormed) && Present(uid) ==>
        push == Some(Push("chamados/" + uid.value, Record(old(form), now, Protocolo(r36, r)))) &&
        form == if pushOk then InitialForm() else old(form)
      ensures push.Some? ==>
        var t := push.value.record;
        t.status == InitialStatus && t.nome != "" && t.email != "" && t.descricao != ""
    {
      if !BrowserAccepts(form, emailWellFormed) {
        return None;
      }
      push := HandleSubmit(uid, now, r36, r, pushOk);
    }
  }
}

=== FILE: pages.dfy ===
/**
 * How a ticket written by the new-ticket form appears on the other pages:
 * the dashboard, the ticket list and the chat read the record that
 * `NewCall.Record` builds.
 */
module Pages {
  import opened Js
  import opened Store
  import NewCall
  import Home
  import CallList
  import Chat

  /**
   * The form writes `criadoEm`, which the dashboard does not read: a new
   * ticket's opening date is the clock reading the dashboard takes while
   * it maps that ticket.
   */
  lemma NewTicketOpensAtSnapshotTime(form: NewCall.Form, created: int, protocolo: string, now: int)
    ensures Home.OpeningDate(NewCall.Record(form, created, protocolo), now) == now
  {
  }

  /** A new ticket's card in the list is titled by its protocol. */
  lemma NewTicketCardLabel(form: NewCall.Form, created: int, r36: string, r: real, key: string)
    requires 0.0 <= r < 1.0
    ensures var p := NewCall.Protocolo(r36, r);
      CallList.CardLabel(CallList.Row(key, NewCall.Record(form, created, p))) == p
  {
  }

  /**
   * A ticket submitted from a form in its initial status counts as open on
   * the dashboard and in the list header and pulses in the list. A chat
   * that received this record as its ticket snapshot would stay "aberto";
   * the chat reads `chamados/{chamadoId}` while the form writes under
   * `chamados/{uid}/{key}`, so in the application its ticket node is empty
   * and the status stays "aberto" through `NextStatus`'s other branch.
   */
  lemma NewTicketIsOpen(form: NewCall.Form, created: int, protocolo: string, key: string, d: int, current: string)
    requires form.status == NewCall.InitialStatus
    ensures var t := NewCall.Record(form, created, protocolo);
      && Home.IsAberto(Home.DatedTicket(key, t, d))
      && CallList.IsAberto(CallList.Row(key, t))
      && CallList.StatusInfoOf(t.status).pulse
      && Chat.NextStatus(current, Some(t)) == Chat.InitialStatus
      && Chat.NextStatus(current, Some(t)) != Chat.Closed
  {
  }
}

=== FILE: sequences.dfy ===
/**
 * The list operations the pages apply to the entries of a snapshot:
 * `Array.prototype.sort` with a numeric comparator (stable, as
 * ECMAScript 2019 requires), `filter(...).length` and `reverse`.
 */
module Sequences {

  /** `s` is in non-decreasing order of `key`. */
  predicate SortedBy<T>(s: seq<T>, key: T -> int) {
    forall i, j :: 0 <= i < j < |s| ==> key(s[i]) <= key(s[j])
  }

  /** The elements of `s` whose key is `k`, in their order in `s`. */
  function WithKey<T>(s: seq<T>, key: T -> int, k: int): (r: seq<T>)
    ensures |r| <= |s|
    ensures forall i :: 0 <= i < |r| ==> key(r[i]) == k
  {
    if s == [] then []
    else if key(s[0]) == k then [s[0]] + WithKey(s[1..], key, k)
    else WithKey(s[1..], key, k)
  }

  /** Places `x` before the first element of `s` whose key is not below its own. */
  function Insert<T>(x: T, s: seq<T>, key: T -> int): seq<T>
  {
    if s == [] || key(x) <= key(s[0]) then [x] + s
    else [s[0]] + Insert(x, s[1..], key)
  }

  lemma {:induction false} InsertPermutes<T>(x: T, s: seq<T>, key: T -> int)
    ensures multiset(Insert(x, s, key)) == multiset(s) + multiset{x}
  {
    if s != [] && key(x) > key(s[0]) {
      InsertPermutes(x, s[1..], key);
      assert s == [s[0]] + s[1..];
    }
  }

  lemma {:induction false} InsertSorted<T>(x: T, s: seq<T>, key: T -> int)
    requires SortedBy(s, key)
    ensures SortedBy(Insert(x, s, key), key)
  {
    if s != [] && key(x) > key(s[0]) {
      InsertSorted(x, s[1..], key);
      var t := Insert(x, s[1..], key);
      InsertPermutes(x, s[1..], key);
      forall i | 0 <= i < |t| ensures key(s[0]) <= key(t[i]) {
        assert t[i] in multiset(t);
        assert t[i] == x || t[i] in multiset(s[1..]);
      }
    }
  }

  /**
   * Inserting `x` puts it ahead of every element that shares its key:
   * the elements with any key keep their relative order.
   */
  lemma {:induction false} InsertWithKey<T>(x: T, s: seq<T>, key: T -> int, k: int)
    ensures WithKey(Insert(x, s, key), key, k) ==
            if key(x) == k then [x] + WithKey(s, key, k) else WithKey(s, key, k)
  {
    if s == [] || key(x) <= key(s[0]) {
      assert ([x] + s)[1..] == s;
    } else {
      InsertWithKey(x, s[1..], key, k);
      assert ([s[0]] + Insert(x, s[1..], key))[1..] == Insert(x, s[1..], key);
    }
  }

  /**
   * `s.slice().sort((a, b) => key(a) - key(b))`: a permutation of `s` in
   * non-decreasing order of `key`, and stable, so that the elements with
   * any one key appear in the order they had in `s`.
   */
  function SortBy<T>(s: seq<T>, key: T -> int): (r: seq<T>)
    ensures |r| == |s|
    ensures multiset(r) == multiset(s)
    ensures SortedBy(r, key)
    ensures forall k :: WithKey(r, key, k) == WithKey(s, key, k)
  {
    if s == [] then []
    else
      var t := SortBy(s[1..], key);
      var r := Insert(s[0], t, key);
      InsertPermutes(s[0], t, key);
      InsertSorted(s[0], t, key);
      assert s == [s[0]] + s[1..];
      assert forall k :: WithKey(r, key, k) == WithKey(s, key, k) by {
        forall k ensures WithKey(r, key, k) == WithKey(s, key, k) {
          InsertWithKey(s[0], t, key, k);
        }
      }
      assert |r| == |multiset(r)| == |multiset(s)| == |s|;
      r
  }

  /** `s.filter(p).length`. */
  function CountIf<T>(s: seq<T>, p: T -> bool): (n: nat)
    ensures n <= |s|
  {
    if s == [] then 0
    else (if p(s[0]) then 1 else 0) + CountIf(s[1..], p)
  }

  /** Counting `b` is counting `b` without its i-th element, plus that element. */
  lemma {:induction false} CountIfRemove<T>(b: seq<T>, i: nat, p: T -> bool)
    requires i < |b|
    ensures CountIf(b, p) == CountIf(b[..i] + b[i + 1..], p) + (if p(b[i]) then 1 else 0)
  {
    var rest := b[..i] + b[i + 1..];
    if i == 0 {
      assert rest == b[1..];
    } else {
      CountIfRemove(b[1..], i - 1, p);
      assert rest[0] == b[0];
      assert rest[1..] == b[1..][..i - 1] + b[1..][i..];
    }
  }

  /**
   * Taking the first element off `a` and an equal element off `b` leaves
   * two permutations of each other.
   */
  lemma PermutationTail<T>(a: seq<T>, b: seq<T>, i: nat)
    requires multiset(a) == multiset(b)
    requires a != [] && i < |b| && b[i] == a[0]
    ensures multiset(a[1..]) == multiset(b[..i] + b[i + 1..])
  {
    assert a == [a[0]] + a[1..];
    assert b == b[..i] + [b[i]] + b[i + 1..];
    assert multiset(a[1..]) == multiset(a) - multiset{a[0]};
    assert multiset(b[..i] + b[i + 1..]) == multiset(b) - multiset{b[i]};
  }

  /** Some position of `b` holds `x`. */
  lemma IndexOf<T>(b: seq<T>, x: T) returns (i: nat)
    requires x in multiset(b)
    ensures i < |b| && b[i] == x
  {
    i :| 0 <= i < |b| && b[i] == x;
  }

  /** Counting does not depend on the order of the elements. */
  lemma {:induction false} CountIfPermutation<T>(a: seq<T>, b: seq<T>, p: T -> bool)
    requires multiset(a) == multiset(b)
    ensures CountIf(a, p) == CountIf(b, p)
  {
    if a != [] {
      assert a[0] in multiset(a);
      var i := IndexOf(b, a[0]);
      PermutationTail(a, b, i);
      CountIfPermutation(a[1..], b[..i] + b[i + 1..], p);
      CountIfRemove(b, i, p);
    }
  }

  /** Elements that satisfy at most one of two predicates are counted at most once. */
  lemma {:induction false} CountIfDisjoint<T>(s: seq<T>, p: T -> bool, q: T -> bool)
    requires forall x :: !(p(x) && q(x))
    ensures CountIf(s, p) + CountIf(s, q) <= |s|
  {
    if s != [] {
      CountIfDisjoint(s[1..], p, q);
    }
  }

  /**
   * Elements that satisfy at most one of three predicates are counted at
   * most once among the three counts.
   */
  lemma {:induction false} CountIfDisjoint3<T>(s: seq<T>, p: T -> bool, q: T -> bool, r: T -> bool)
    requires forall x :: !(p(x) && q(x)) && !(p(x) && r(x)) && !(q(x) && r(x))
    ensures CountIf(s, p) + CountIf(s, q) + CountIf(s, r) <= |s|
  {
    if s != [] {
      CountIfDisjoint3(s[1..], p, q, r);
    }
  }

  /** `s.reverse()` on a fresh copy of `s`. */
  function Reverse<T>(s: seq<T>): (r: seq<T>)
    ensures |r| == |s|
  {
    if s == [] then [] else Reverse(s[1..]) + [s[0]]
  }

  lemma {:induction false} ReverseAt<T>(s: seq<T>, i: nat)
    requires i < |s|
    ensures Reverse(s)[i] == s[|s| - 1 - i]
  {
    if i < |s| - 1 {
      ReverseAt(s[1..], i);
    }
  }
}

=== FILE: store.dfy ===
/**
 * The records the pages read from and write to the realtime database,
 * and the snapshots through which they arrive. A snapshot is the value
 * of one database node: `null` when the node is empty, otherwise its
 * children as (key, record) entries in the order `Object.entries`
 * yields them. A field a stored ticket lacks is the empty string (or
 * `None` for a time): every rule in the pages treats an absent string
 * and "" alike. A stored message is taken to carry all three fields.
 */
module Store {
  import opened Js

  datatype Entry<T> = Entry(key: string, value: T)

  /** The name shown for a user who has none: "Usuário". */
  const DefaultUserName: string := "Usuário"

  /** `snapshot.val()` of a node whose children are records of type `T`. */
  type Snapshot<T> = Option<seq<Entry<T>>>

  /** `Object.entries(snapshot.val() || {})`. */
  function Entries<T>(snap: Snapshot<T>): (es: seq<Entry<T>>)
    ensures snap.None? ==> es == []
  {
    if snap.Some? then snap.value else []
  }

  /** A ticket under `chamados/{uid}/{key}`. Times are milliseconds since the epoch. */
  datatype Ticket = Ticket(
    nome: string,
    email: string,
    categoria: string,
    prioridade: string,
    descricao: string,
    status: string,
    criadoEm: Option<int>,
    protocolo: string,
    assunto: string,
    dataAbertura: Option<int>,
    timestamp: Option<int>)

  /** A message under `chamados/{chamadoId}/mensagens/{key}`. */
  datatype StoredMessage = StoredMessage(texto: string, autor: string, timestamp: int)
}
